=== FILE: README.md ===
# Holi roles bot, modelled in Dafny

The bot manages a fixed palette of seven "Holi" color roles (Red, Orange,
Yellow, Green, Blue, Purple, Pink) per guild of a chat platform, and offers
four slash commands:

- `/holi_roles create` creates the palette roles on the platform and records
  them in the `holi_roles` table.
- `/holi_roles delete` deletes them from the platform and clears the table for
  the guild.
- `/splash` takes every registered color role off a member, gives them the
  chosen (or a randomly drawn) color, and logs the event in `splash_logs`.
- `/splash_history` shows the guild's last ten splash events, newest first.

The model has four modules:

- `Repository` (repository.dfy) holds the two tables as sequences of rows in a
  `Store` class, with one auto-increment key counter per table. The repository
  functions are methods and functions of that class. `Store.Valid()` is the
  invariant that keys ascend in table order and stay below their counter.
- `Platform` (guild.dfy) is the platform as the commands see it: a `Guild`
  class with its existing role ids and its members' role lists. Every platform
  call takes its outcome as a parameter: `Ok`, `Forbidden`, or any other
  failure (`OtherError`). `Guild.Valid()` is the invariant that a member holds
  only roles that exist; deleting a role takes it off every member.
- `Text` (text.dfy) covers ASCII `str.lower()` and `str.title()`, decimal
  rendering of an id, and `"\n".join`.
- `HoliCog` (holi_cog.dfy) holds the four commands as methods. Each loop is
  proved against a recursive function that runs the loop over the first `n`
  items: `RunCreate`, `RunDelete` and `RunRemoval`. The properties of the
  commands are lemmas about those functions. The whole of `/splash` is
  specified by `SplashSpec`.

The model follows what the code does, including these behaviours that a
reader might not expect from the commands' help texts:

- A random splash draws from the whole static palette, not from the colors
  the guild registered. A drawn color the guild lacks fails with "not
  available"; `RandomPickCanMiss` states this.
- `/holi_roles delete` clears the table only when no deletion was refused.
  After a `Forbidden` it returns before `clear_holi_roles`, so the rows stay.
- The tables do not enforce one row per (guild, color). `DuplicateColorsKept`
  states this.
- `/splash` catches only `Forbidden` from `remove_roles` and `add_roles`. Any
  other failure ends the command with the changes made so far; this is the
  `PlatformError` reply.

## Model

| member | source | states |
|---|---|---|
| Text.Lower | cogs/holi/HoliCog.py:154 | `str.lower()` maps every character on its own: an upper-case letter to the letter 32 code points above it, anything else to itself |
| Text.TitleChar | cogs/holi/HoliCog.py:149 | one character of `str.title()`: a letter after a letter becomes lower case, any other letter upper case, a non-letter stays; the letter's case-blind identity is kept |
| Text.TitleFrom | cogs/holi/HoliCog.py:149 | the length is kept and each character is title-cased by whether the character before it is a letter |
| Text.Title | cogs/holi/HoliCog.py:149 | `str.title()`: the length is kept; a letter that starts a word becomes upper case, every other letter lower case |
| Text.LowerOfTitle | cogs/holi/HoliCog.py:149-154 | lower-casing a title-cased color gives the lower-cased color back, so `title()` never changes which row the case-blind comparison matches |
| Text.TitleIgnoresCase | cogs/holi/HoliCog.py:149 | two colors typed in different case title-case to the same string |
| Text.Decimal | cogs/holi/HoliCog.py:222-223 | an id is rendered as a non-empty string of decimal digits, with a leading zero only for the id 0 |
| Text.DecimalRoundTrip | cogs/holi/HoliCog.py:222-223 | parsing the rendered id gives the id back |
| Text.DecimalInjective | cogs/holi/HoliCog.py:222-223 | different ids render differently |
| Text.Join | cogs/holi/HoliCog.py:227 | `"\n".join(lines)`: empty for no lines; otherwise as long as the lines plus one separator between neighbours, ending with the last line |
| Text.JoinStartsWithFirst | cogs/holi/HoliCog.py:227 | the joined text starts with the first line |
| Repository.RolesOf | repository/repository.py:51-56 | `filter_by(guild_id)` returns at most the table's rows, every one of them of that guild |
| Repository.RolesOfMembers | repository/repository.py:51-56 | a row is returned exactly when it is in the table and belongs to the guild |
| Repository.RolesOutside | repository/repository.py:58-65 | a bulk delete by guild leaves only rows of other guilds |
| Repository.RolesOutsideMembers | repository/repository.py:58-65 | a row survives the delete exactly when it is in the table and belongs to another guild |
| Repository.RolesOutsideKeepsOthers | repository/repository.py:58-65 | clearing one guild leaves every other guild's rows, in order |
| Repository.RolesOfAppend | repository/repository.py:42-56 | inserting rows appends the guild's new rows to its query result |
| Repository.RolesOfAbsent | repository/repository.py:51-56 | a table without rows of the guild answers the guild's query with no rows |
| Repository.RolesOfAll | repository/repository.py:51-56 | a table whose rows all belong to the guild is returned whole |
| Repository.LogsOf | repository/repository.py:86-88 | the guild's events: at most the table's rows, all of that guild |
| Repository.LogsOfMembers | repository/repository.py:86-88 | an event is selected exactly when it is in the table and belongs to the guild |
| Repository.RolesOutsideAscending | repository/repository.py:58-65 | deleting rows keeps auto-increment keys ascending in table order |
| Repository.LogsOfAscending | repository/repository.py:82-94 | a guild's events keep ascending keys in table order |
| Repository.DuplicateColorsKept | repository/repository.py:42-49 | adding the same color twice for a guild leaves two rows for that color, both returned by the guild's query |
| Repository.Store.constructor | repository/repository.py:37 | both tables start empty with their key counters at 1 |
| Repository.Store.AddHoliRole | repository/repository.py:42-49 | appends one row with the next key; the guild's query gains exactly that row; other guilds and the log table are unchanged |
| Repository.Store.GetHoliRoles | repository/repository.py:51-56 | the guild's rows: at most the table's rows, every one of that guild |
| Repository.Store.ClearHoliRoles | repository/repository.py:58-65 | removes exactly the guild's rows: the guild's query becomes empty, every other guild's is unchanged |
| Repository.Store.LogSplash | repository/repository.py:67-80 | appends one event whose key is above every earlier key; the role table is unchanged |
| Repository.Store.GetSplashLogs | repository/repository.py:82-94 | returns min(limit, n) of the guild's n events, newest first, with strictly decreasing keys, each from the table and of that guild |
| Platform.Without | cogs/holi/HoliCog.py:172 | after a removal the member holds exactly their other roles |
| Platform.With | cogs/holi/HoliCog.py:179 | after a grant the member holds their roles plus the granted one |
| Platform.Keep | cogs/holi/HoliCog.py:105 | a member's role list after deletions holds exactly the listed roles that still exist, and is no longer than before |
| Platform.KeepAppend | cogs/holi/HoliCog.py:105 | keeping distributes over concatenation, so the kept roles stay in the order the platform listed them |
| Platform.KeepAll | cogs/holi/HoliCog.py:105 | a list naming only existing roles is kept whole |
| Platform.KeepTwice | cogs/holi/HoliCog.py:105 | dropping roles in two rounds equals dropping them in one |
| Platform.Prune | cogs/holi/HoliCog.py:105 | every member keeps their name and holds exactly their former roles that still exist: none lost beyond the deleted ones, none gained |
| Platform.PruneIdle | cogs/holi/HoliCog.py:105 | pruning members whose roles all exist changes nothing |
| Platform.PruneTwice | cogs/holi/HoliCog.py:100-111 | deleting roles one after another prunes the members as deleting them together does |
| Platform.Guild.constructor | cogs/holi/HoliCog.py:49 | a guild with the given roles and members, each member holding only existing roles |
| Platform.Guild.CreateRole | cogs/holi/HoliCog.py:67-71 | on success the guild gains the new role; members unchanged |
| Platform.Guild.DeleteRole | cogs/holi/HoliCog.py:105 | on success the role is gone from the guild and from every member that held it; otherwise nothing changes |
| Platform.Guild.RemoveRole | cogs/holi/HoliCog.py:172 | on success only the one member's role list changes, losing the role |
| Platform.Guild.AddRole | cogs/holi/HoliCog.py:179 | on success only the one member's role list changes, gaining the role |
| HoliCog.PaletteDistinct | cogs/holi/HoliCog.py:17-25 | the seven palette names are pairwise different, as dictionary keys are |
| HoliCog.IndexIn | cogs/holi/HoliCog.py:17-25 | the position of a color is its first occurrence in the list |
| HoliCog.PaletteIndexOf | cogs/holi/HoliCog.py:17-25 | palette names are distinct: each palette entry's position is its own index |
| HoliCog.CreateStep | cogs/holi/HoliCog.py:66-81 | one color: the count rises by one exactly when `create_role` succeeds; a failed create adds nothing to the created or stored roles; only the new role can be created; the loop stops exactly on a Forbidden from the create or, after a created role, from the edit |
| HoliCog.RunCreate | cogs/holi/HoliCog.py:64-81 | after n colors at most n roles are counted, and only roles the platform returned for those colors are created |
| HoliCog.CreateStepRegistersAtMostOne | cogs/holi/HoliCog.py:66-81 | one turn of the create loop stores nothing or exactly the role for its color |
| HoliCog.CreateRoles | cogs/holi/HoliCog.py:43-83 | with rows already present: replies "already exist" and changes nothing; otherwise the reply, the stored rows (consecutive keys, this guild, palette order), the guild's query result and the new platform roles are those of the create loop run to its end; the role key counter rises by the number of rows stored, the event key counter stays |
| HoliCog.CreatePalette | cogs/holi/HoliCog.py:64-82 | the loop over the palette leaves the tables and the guild as the create loop run over all seven colors does, and keeps the store invariant |
| HoliCog.CreateColorRole | cogs/holi/HoliCog.py:66-81 | one color: the count goes up when the role is created; the row is stored only when the edit also succeeds; a Forbidden from either call stops the loop |
| HoliCog.RegistryRowsSnoc | cogs/holi/HoliCog.py:76 | storing one more role adds one row with the next key |
| HoliCog.RegistryOfCreatedGuild | cogs/holi/HoliCog.py:55-76 | with no earlier rows for the guild, its query returns exactly the rows just stored |
| HoliCog.CreateAbortIsFinal | cogs/holi/HoliCog.py:77-79 | after a Forbidden the loop changes nothing more |
| HoliCog.CreateDependsOnPrefix | cogs/holi/HoliCog.py:65-81 | the loop over n colors depends only on the outcomes of those n colors |
| HoliCog.ForbiddenStopsCreation | cogs/holi/HoliCog.py:77-79 | a Forbidden at color k makes the outcomes of later colors irrelevant, and keeps the roles stored before k |
| HoliCog.RegisteredStaysRegistered | cogs/holi/HoliCog.py:64-81 | stored roles and created roles only grow as the loop advances |
| HoliCog.RegisteredInPaletteOrder | cogs/holi/HoliCog.py:64-76 | stored colors are palette colors among those tried, in palette order, each at most once |
| HoliCog.AppendInPaletteOrder | cogs/holi/HoliCog.py:65-76 | storing the k-th palette color after colors before k keeps palette order |
| HoliCog.CreateFailuresSkipColors | cogs/holi/HoliCog.py:66-81 | when every `create_role` fails with an error other than Forbidden, nothing is counted, created or stored and the loop runs to the end |
| HoliCog.CountCoversRegistered | cogs/holi/HoliCog.py:72-76 | `created_count` is at least the number of stored roles, because it is raised before the edit |
| HoliCog.EditFailuresCountedNotStored | cogs/holi/HoliCog.py:72-81 | when every edit fails with a non-Forbidden error, every role is counted and created and none is stored |
| HoliCog.AllSucceedRegistersPalette | cogs/holi/HoliCog.py:64-76 | when every call succeeds, the count is seven and the whole palette is stored in order |
| HoliCog.RunDelete | cogs/holi/HoliCog.py:100-111 | after n rows the guild keeps a subset of its roles and at most n deletions are counted |
| HoliCog.DeleteRoles | cogs/holi/HoliCog.py:87-116 | no rows: replies "none found" and changes nothing; otherwise the guild's roles and the reply are those of the delete loop, and members lose exactly the deleted roles; rows are cleared exactly when no deletion was refused; other guilds' rows are kept; neither key counter moves |
| HoliCog.DeleteListedRoles | cogs/holi/HoliCog.py:100-111 | the delete loop leaves the guild's roles, the count and the early stop as `RunDelete` does, and members hold only the roles left |
| HoliCog.DeleteRegisteredRole | cogs/holi/HoliCog.py:102-111 | a role still in the guild is deleted on success and stops the loop on Forbidden; a missing role is skipped |
| HoliCog.DeleteAbortIsFinal | cogs/holi/HoliCog.py:107-109 | after a Forbidden the delete loop changes nothing more |
| HoliCog.DeleteAbortNeedsForbidden | cogs/holi/HoliCog.py:101-111 | the delete loop stops early only on a Forbidden for a role that existed |
| HoliCog.DeleteKeepsOnlyGuildRoles | cogs/holi/HoliCog.py:100-106 | the loop removes only registered roles, and `deleted_count` is exactly how many it removed |
| HoliCog.DeleteSkipsMissingRoles | cogs/holi/HoliCog.py:102-103 | rows whose role no longer exists are skipped: nothing deleted, nothing counted, no error |
| HoliCog.DeleteAllSucceed | cogs/holi/HoliCog.py:101-106 | when every deletion succeeds, no registered role is left in the guild |
| HoliCog.FirstMatch | cogs/holi/HoliCog.py:152-156 | the first row whose lower-cased name equals the lower-cased color, or none when no row does |
| HoliCog.FindColorRecord | cogs/holi/HoliCog.py:152-156 | the search loop finds that first matching row |
| HoliCog.RunRemoval | cogs/holi/HoliCog.py:168-175 | removals never make the member's role list longer |
| HoliCog.RemoveConfiguredRoles | cogs/holi/HoliCog.py:167-175 | the removal loop over the member's roles leaves the member's roles and the status as `RunRemoval` does; only this member changes |
| HoliCog.RemovalStopIsFinal | cogs/holi/HoliCog.py:173-175 | after a failed removal the loop changes nothing more |
| HoliCog.RemovalTakesOnlyConfigured | cogs/holi/HoliCog.py:168-175 | removal only takes roles away, only registered ones; a completed loop leaves no registered role among those visited |
| HoliCog.RequestedColor | cogs/holi/HoliCog.py:147-149 | the color looked for is the given color, or the drawn palette entry, up to case |
| HoliCog.SplashSpec | cogs/holi/HoliCog.py:141-190 | a successful splash reports the requested color, and the member gains at most one role |
| HoliCog.Recolor | cogs/holi/HoliCog.py:167-182 | the member ends up holding only roles they held or the target; on success they hold the target |
| HoliCog.Splash | cogs/holi/HoliCog.py:122-190 | the reply and the member's new roles are those of `SplashSpec` for the requested, title-cased color; the event is logged with that color exactly when the splash succeeds; role table, guild roles and role key counter unchanged; the event key counter rises by one exactly when the splash succeeds |
| HoliCog.SwapColorRole | cogs/holi/HoliCog.py:167-182 | removes the registered roles then adds the target, ending at the first uncaught failure, as `Recolor` says |
| HoliCog.ResolvesIgnoringCase | cogs/holi/HoliCog.py:149-156 | the title-cased color matches the first row whose lower-cased name equals the lower-cased typed color |
| HoliCog.SplashIgnoresCase | cogs/holi/HoliCog.py:149-156 | colors typed in different case splash identically |
| HoliCog.RandomPickCanMiss | cogs/holi/HoliCog.py:147-160 | a random palette color the guild has no row for fails with "not available" and changes nothing |
| HoliCog.FailedLookupChangesNothing | cogs/holi/HoliCog.py:141-165 | no rows gives "no roles"; no matching row gives "not available"; a first match whose role no longer exists gives "role not found"; each of these leaves the member's roles as they were |
| HoliCog.SplashLeavesOneColor | cogs/holi/HoliCog.py:141-190 | a successful splash needs a matching row whose role exists; afterwards the member holds the target role and no other registered role, keeps every role not registered, and gains nothing else |
| HoliCog.RemovalStaysDone | cogs/holi/HoliCog.py:168-175 | a role removed successfully is not held again at any later point of the removal loop |
| HoliCog.RefusedRemovalGrantsNothing | cogs/holi/HoliCog.py:173-175 | a refused removal grants nothing, keeps every role not registered, and does not roll back the removals that succeeded before it |
| HoliCog.TitleOfBlue | cogs/holi/HoliCog.py:149 | "blue" title-cases to "Blue" |
| HoliCog.BlueIsSecondRow | cogs/holi/HoliCog.py:152-156 | with rows Red then Blue, Blue is found at the second row |
| HoliCog.RedToBlue | cogs/holi/HoliCog.py:141-190 | a member holding Red and another role, splashed with "blue", ends up holding the other role and Blue |
| HoliCog.DisplayNameShows | cogs/holi/HoliCog.py:222-223 | a member is shown by display name; anyone else as `User(<id>)`, whose digits read back as the id |
| HoliCog.EventLineFrames | cogs/holi/HoliCog.py:225 | a history line starts with the event time in backquotes and ends with the color in bold |
| HoliCog.HistoryText | cogs/holi/HoliCog.py:227-228 | the reply text ends with the lines joined by newlines |
| HoliCog.FormatLines | cogs/holi/HoliCog.py:217-225 | one history line per event, in the order given |
| HoliCog.SplashHistory | cogs/holi/HoliCog.py:203-228 | "no events" exactly when the guild has none; otherwise one line per event of the newest ten, newest first, under the header |
| HoliCog.HeaderCountsLines | cogs/holi/HoliCog.py:227-228 | the header starts with "**Last " and a number that parses back to the number of lines |
| HoliCog.FallbackNamesIdentifyUsers | cogs/holi/HoliCog.py:222-223 | two users missing from the guild never get the same fallback name |

## Left out

- The "guild context not found" checks are left out. The commands take a
  guild, so a missing guild cannot be expressed.
- Storage failures are left out. Each repository call either happens in full
  or not at all, and the model does not let it fail.
- Replies are modelled as reply values. The ephemeral flag, embeds and
  `defer()` are left out.
- Logging of caught errors is left out.
- Permission checks on the commands are left out.
- Locating the 'verified' role and the target position of the edit are left
  out. Only the edit's outcome is modelled.
- The random choice is the parameter `pick`, an index into the palette. The
  write time of an event is the parameter `now`, already rendered as
  "YYYY-MM-DD HH:MM".
- `str.title()` and `str.lower()` are modelled on ASCII letters only. Other
  characters are kept as they are, which is also what Python does for the
  palette's names.
- Ids are unbounded naturals. The 64-bit bound of the id columns is not
  modelled.
- Concurrent commands and interleaving at `await` points are left out. Each
  command runs alone.
- SQLite may reuse the key of a deleted last row. The model's counters never
  reuse a key; only key order matters to the queries.
- Repository.Store.GetHoliRoles: results come back in table order. SQL does
  not promise an order without `ORDER BY`; the model fixes one.
- Repository.Store.GetSplashLogs: `limit` is a natural number. A negative
  limit is not modelled; the only caller passes 10.
- HoliCog.DeleteRoles, HoliCog.Splash: a precondition asks for one platform
  outcome per registry row, or per role the member holds. The outcomes of
  calls that never happen are ignored.
- HoliCog.SplashHistory: the timestamp text is taken as stored. The
  `strftime` formatting is not modelled.

=== FILE: guild.dfy ===
/**
 * The chat platform as the commands see it: which roles exist in a guild and
 * which roles each member holds. Every call into the platform can fail; the
 * caller supplies the outcome of each call.
 */
module Platform {

  /** How one platform call ends: done, refused for lack of permission, or any other failure. */
  datatype Outcome = Ok | Forbidden | OtherError

  /** A guild member: the name shown for them and their role ids in the order the platform lists them. */
  datatype Member = Member(displayName: string, roles: seq<nat>)

  /** `roles` with every occurrence of `role` taken out. */
  function Without(roles: seq<nat>, role: nat): (r: seq<nat>)
    ensures |r| <= |roles|
    ensures forall x :: x in r <==> x in roles && x != role
  {
    if roles == [] then []
    else (if roles[0] == role then [] else [roles[0]]) + Without(roles[1..], role)
  }

  /** `roles` after granting `role`: a role already held is not listed twice. */
  function With(roles: seq<nat>, role: nat): (r: seq<nat>)
    ensures forall x :: x in r <==> x in roles || x == role
  {
    if role in roles then roles else roles + [role]
  }

  /** Every role in `held` is one of `roles`. */
  predicate Within(held: seq<nat>, roles: set<nat>)
  {
    forall x :: x in held ==> x in roles
  }

  /** The roles of `held` that still exist, in order. */
  function Keep(held: seq<nat>, alive: set<nat>): (r: seq<nat>)
    ensures |r| <= |held|
    ensures forall x :: x in r <==> x in held && x in alive
  {
    if held == [] then []
    else (if held[0] in alive then [held[0]] else []) + Keep(held[1..], alive)
  }

  /** Keeping distributes over concatenation, so the kept roles stay in their order. */
  lemma {:induction false} KeepAppend(a: seq<nat>, b: seq<nat>, alive: set<nat>)
    ensures Keep(a + b, alive) == Keep(a, alive) + Keep(b, alive)
  {
    if a == [] {
      assert a + b == b;
    } else {
      var ab := a + b;
      var head := if a[0] in alive then [a[0]] else [];
      assert ab[0] == a[0] && ab[1..] == a[1..] + b;
      assert Keep(ab, alive) == head + Keep(ab[1..], alive);
      assert Keep(a, alive) == head + Keep(a[1..], alive);
      KeepAppend(a[1..], b, alive);
      assert head + (Keep(a[1..], alive) + Keep(b, alive)) == (head + Keep(a[1..], alive)) + Keep(b, alive);
    }
  }

  lemma {:induction false} KeepAll(held: seq<nat>, alive: set<nat>)
    requires Within(held, alive)
    ensures Keep(held, alive) == held
  {
    if held != [] {
      assert held[0] in held;
      KeepAll(held[1..], alive);
      assert held == [held[0]] + held[1..];
    }
  }

  lemma {:induction false} KeepTwice(held: seq<nat>, a: set<nat>, b: set<nat>)
    requires b <= a
    ensures Keep(Keep(held, a), b) == Keep(held, b)
  {
    if held != [] {
      KeepTwice(held[1..], a, b);
      var head := if held[0] in a then [held[0]] else [];
      assert Keep(held, a) == head + Keep(held[1..], a);
      if held[0] in a {
        var k := Keep(held, a);
        assert k[0] == held[0] && k[1..] == Keep(held[1..], a);
        assert Keep(k, b) == (if held[0] in b then [held[0]] else []) + Keep(k[1..], b);
      } else {
        assert Keep(held, a) == Keep(held[1..], a);
        assert Keep(held, b) == Keep(held[1..], b);
      }
    }
  }

  /**
   * What the platform lists for each member once only the roles in `alive`
   * exist: a deleted role is no longer held by anyone.
   */
  function Prune(members: map<nat, Member>, alive: set<nat>): (r: map<nat, Member>)
    ensures r.Keys == members.Keys
    ensures forall m :: m in r ==>
      && r[m].displayName == members[m].displayName
      && Within(r[m].roles, alive)
      && (forall x :: x in r[m].roles ==> x in members[m].roles)
      && (forall x :: x in members[m].roles && x in alive ==> x in r[m].roles)
  {
    map m | m in members :: members[m].(roles := Keep(members[m].roles, alive))
  }

  /** Pruning to roles every member's list already lies within changes nothing. */
  lemma PruneIdle(members: map<nat, Member>, alive: set<nat>)
    requires forall m :: m in members ==> Within(members[m].roles, alive)
    ensures Prune(members, alive) == members
  {
    forall m | m in members ensures Prune(members, alive)[m] == members[m] {
      KeepAll(members[m].roles, alive);
    }
  }

  /** Pruning twice is pruning once to the smaller set of roles. */
  lemma PruneTwice(members: map<nat, Member>, a: set<nat>, b: set<nat>)
    requires b <= a
    ensures Prune(Prune(members, a), b) == Prune(members, b)
  {
    forall m | m in members ensures Prune(Prune(members, a), b)[m] == Prune(members, b)[m] {
      KeepTwice(members[m].roles, a, b);
    }
  }

  class Guild {
    const id: nat
    /** Ids of the roles that exist in the guild (what get_role can find). */
    var roles: set<nat>
    /** The members the platform knows (what get_member can find). */
    var members: map<nat, Member>

    /** The platform lists for a member only roles that exist in the guild. */
    ghost predicate Valid()
      reads this
    {
      forall m :: m in members ==> Within(members[m].roles, roles)
    }

    constructor (id: nat, roles: set<nat>, members: map<nat, Member>)
      requires forall m :: m in members ==> Within(members[m].roles, roles)
      ensures Valid()
      ensures this.id == id && this.roles == roles && this.members == members
    {
      this.id := id;
      this.roles := roles;
      this.members := members;
    }

    /** create_role: on success the platform has a new role, with the id it chose. */
    method CreateRole(outcome: Outcome, newRole: nat)
      requires Valid()
      modifies this
      ensures Valid()
      ensures roles == if outcome == Ok then old(roles) + {newRole} else old(roles)
      ensures members == old(members)
    {
      if outcome == Ok {
        roles := roles + {newRole};
      }
    }

    /** Role.delete: on success the role is gone, and with it from every member that held it. */
    method DeleteRole(role: nat, outcome: Outcome)
      requires Valid()
      modifies this
      ensures Valid()
      ensures roles == if outcome == Ok then old(roles) - {role} else old(roles)
      ensures members == if outcome == Ok then Prune(old(members), roles) else old(members)
    {
      if outcome == Ok {
        roles := roles - {role};
        members := Prune(members, roles);
      }
    }

    /** Member.remove_roles with one role. */
    method RemoveRole(member: nat, role: nat, outcome: Outcome)
      requires Valid()
      requires member in members
      modifies this
      ensures Valid()
      ensures roles == old(roles)
      ensures members == if outcome == Ok
        then old(members)[member := old(members)[member].(roles := Without(old(members)[member].roles, role))]
        else old(members)
    {
      if outcome == Ok {
        members := members[member := members[member].(roles := Without(members[member].roles, role))];
      }
    }

    /** Member.add_roles with one role of the guild. */
    method AddRole(member: nat, role: nat, outcome: Outcome)
      requires Valid()
      requires member in members && role in roles
      modifies this
      ensures Valid()
      ensures roles == old(roles)
      ensures members == if outcome == Ok
        then old(members)[member := old(members)[member].(roles := With(old(members)[member].roles, role))]
        else old(members)
    {
      if outcome == Ok {
        members := members[member := members[member].(roles := With(members[member].roles, role))];
      }
    }
  }
}

=== FILE: holi_cog.dfy ===
/**
 * The commands of the Holi cog: create and delete a guild's palette of color
 * roles, splash a member with a color, and show the splash history.
 *
 * Each command is a method over the store and the guild. Every platform call
 * takes its outcome from an argument, so a command is deterministic once those
 * outcomes (and, for splash, the random palette index) are given. Each loop of
 * a command is specified by a function that replays it over the outcomes
 * (RunCreate, RunDelete, RunRemoval); the lemmas state what the commands
 * promise in terms of those functions.
 */
module HoliCog {
  import opened Text
  import opened Repository
  import opened Platform

  datatype Option<T> = None | Some(value: T)

  /** The palette, in the order create_roles walks it. */
  const HoliColors: seq<string> := ["Red", "Orange", "Yellow", "Green", "Blue", "Purple", "Pink"]

  lemma PaletteDistinct()
    ensures forall i, j :: 0 <= i < j < |HoliColors| ==> HoliColors[i] != HoliColors[j]
  {
  }

  /** Position of a color in a list of colors (its first occurrence). */
  function IndexIn(colors: seq<string>, color: string): (i: nat)
    requires color in colors
    ensures i < |colors| && colors[i] == color
    ensures forall j :: 0 <= j < i ==> colors[j] != color
  {
    if colors[0] == color then 0 else 1 + IndexIn(colors[1..], color)
  }

  function PaletteIndex(color: string): nat
    requires color in HoliColors
  {
    IndexIn(HoliColors, color)
  }

  lemma PaletteIndexOf(k: nat)
    requires k < |HoliColors|
    ensures PaletteIndex(HoliColors[k]) == k
  {
    PaletteDistinct();
  }

  // ---------------------------------------------------------------------------
  // /holi_roles create
  // ---------------------------------------------------------------------------

  /**
   * The outcomes of one palette color's platform calls: create_role, the id the
   * platform gives the new role, and the edit that moves it above 'verified'.
   */
  datatype CreateAttempt = CreateAttempt(create: Outcome, newRole: nat, edit: Outcome)

  /** A role that create_roles stored: the platform role and its color. */
  datatype Registration = Registration(roleId: nat, colorName: string)

  /** The state of the create loop: created_count, the stored roles, the roles made on the platform. */
  datatype CreateRun = CreateRun(count: nat, registered: seq<Registration>, created: set<nat>, aborted: bool)

  datatype CreateReply = AlreadyExist | CreateForbidden | Created(count: nat)

  /** One turn of the create loop for one palette color. */
  function CreateStep(run: CreateRun, a: CreateAttempt, color: string): (r: CreateRun)
    ensures run.count <= r.count <= run.count + 1
    ensures run.created <= r.created && r.created <= run.created + {a.newRole}
    ensures r.aborted <==> run.aborted || a.create == Forbidden || (a.create == Ok && a.edit == Forbidden)
    ensures r.count == run.count + (if a.create == Ok then 1 else 0)
    ensures a.create != Ok ==> r.registered == run.registered && r.created == run.created
  {
    match a.create
    case Forbidden => run.(aborted := true)
    case OtherError => run
    case Ok =>
      var made := run.(count := run.count + 1, created := run.created + {a.newRole});
      match a.edit
      case Forbidden => made.(aborted := true)
      case OtherError => made
      case Ok => made.(registered := made.registered + [Registration(a.newRole, color)])
  }

  /** A turn of the create loop stores nothing, or the one role for its color. */
  lemma CreateStepRegistersAtMostOne(run: CreateRun, a: CreateAttempt, color: string)
    ensures var regs := CreateStep(run, a, color).registered;
      regs == run.registered || regs == run.registered + [Registration(a.newRole, color)]
  {
  }

  /** The create loop over the first n palette colors; a Forbidden ends it. */
  function RunCreate(attempts: seq<CreateAttempt>, n: nat): (r: CreateRun)
    requires n <= |attempts| && n <= |HoliColors|
    ensures r.count <= n
    ensures r.created <= set i | 0 <= i < n :: attempts[i].newRole
  {
    if n == 0 then CreateRun(0, [], {}, false)
    else
      var prev := RunCreate(attempts, n - 1);
      if prev.aborted then prev else CreateStep(prev, attempts[n - 1], HoliColors[n - 1])
  }

  /** The table rows for the stored roles, with consecutive keys from firstId. */
  function RegistryRows(firstId: nat, guildId: nat, regs: seq<Registration>): (rows: seq<HoliRole>)
    ensures |rows| == |regs|
    ensures forall i :: 0 <= i < |rows| ==> rows[i].guildId == guildId
  {
    seq(|regs|, i requires 0 <= i < |regs| => HoliRole(firstId + i, guildId, regs[i].roleId, regs[i].colorName))
  }

  method CreateRoles(store: Store, guild: Guild, attempts: seq<CreateAttempt>) returns (reply: CreateReply)
    requires store.Valid() && guild.Valid()
    requires |attempts| == |HoliColors|
    modifies store, guild
    ensures store.Valid()
    ensures store.splashLogs == old(store.splashLogs) && store.nextLogId == old(store.nextLogId)
    ensures guild.Valid() && guild.members == old(guild.members)
    ensures old(store.GetHoliRoles(guild.id)) != [] ==>
      && reply == AlreadyExist && store.holiRoles == old(store.holiRoles)
      && store.nextRoleId == old(store.nextRoleId) && guild.roles == old(guild.roles)
    ensures old(store.GetHoliRoles(guild.id)) == [] ==>
      var run := RunCreate(attempts, |HoliColors|);
      var rows := RegistryRows(old(store.nextRoleId), guild.id, run.registered);
      && reply == (if run.aborted then CreateForbidden else Created(run.count))
      && store.holiRoles == old(store.holiRoles) + rows
      && store.nextRoleId == old(store.nextRoleId) + |rows|
      && store.GetHoliRoles(guild.id) == rows
      && guild.roles == old(guild.roles) + run.created
  {
    var existing := store.GetHoliRoles(guild.id);
    if existing != [] {
      return AlreadyExist;
    }
    ghost var rows0 := store.holiRoles;
    ghost var first := store.nextRoleId;
    var stop, createdCount := CreatePalette(store, guild, attempts);
    reply := if stop then CreateForbidden else Created(createdCount);
    RegistryOfCreatedGuild(store, rows0, first, guild.id, RunCreate(attempts, |HoliColors|).registered);
  }

  /** The create loop of create_roles: one turn per palette color until a Forbidden. */
  method CreatePalette(store: Store, guild: Guild, attempts: seq<CreateAttempt>) returns (stop: bool, createdCount: nat)
    requires store.Valid() && guild.Valid()
    requires |attempts| == |HoliColors|
    modifies store, guild
    ensures var run := RunCreate(attempts, |HoliColors|);
      && stop == run.aborted && createdCount == run.count
      && store.Valid()
      && store.holiRoles == old(store.holiRoles) + RegistryRows(old(store.nextRoleId), guild.id, run.registered)
      && store.nextRoleId == old(store.nextRoleId) + |run.registered|
      && guild.roles == old(guild.roles) + run.created
    ensures store.splashLogs == old(store.splashLogs) && store.nextLogId == old(store.nextLogId)
    ensures guild.Valid() && guild.members == old(guild.members)
  {
    ghost var rows0 := store.holiRoles;
    ghost var first := store.nextRoleId;
    ghost var roles0 := guild.roles;
    createdCount := 0;
    var i := 0;
    stop := false;
    ghost var run := RunCreate(attempts, 0);
    while i < |HoliColors| && !stop
      invariant 0 <= i <= |HoliColors|
      invariant run == RunCreate(attempts, i)
      invariant stop == run.aborted && createdCount == run.count
      invariant store.Valid()
      invariant store.holiRoles == rows0 + RegistryRows(first, guild.id, run.registered)
      invariant store.nextRoleId == first + |run.registered|
      invariant guild.roles == roles0 + run.created
      invariant store.splashLogs == old(store.splashLogs) && store.nextLogId == old(store.nextLogId)
      invariant guild.Valid() && guild.members == old(guild.members)
    {
      stop, createdCount := CreateColorRole(store, guild, attempts[i], HoliColors[i], createdCount,
                                            run, rows0, first, roles0);
      run := CreateStep(run, attempts[i], HoliColors[i]);
      i := i + 1;
    }
    if stop {
      CreateAbortIsFinal(attempts, i, |HoliColors|);
    }
  }

  /**
   * One turn of the create loop: create the role for `color`, count it, move it
   * above 'verified' and store it; a Forbidden from either call stops the loop.
   * `run` is the loop's state so far, `rows0`, `first` and `roles0` the table,
   * key counter and platform roles before the loop.
   */
  method CreateColorRole(store: Store, guild: Guild, a: CreateAttempt, color: string, createdCount: nat,
                         ghost run: CreateRun, ghost rows0: seq<HoliRole>, ghost first: nat, ghost roles0: set<nat>)
    returns (stop: bool, count: nat)
    requires store.Valid() && guild.Valid() && !run.aborted && createdCount == run.count
    requires store.holiRoles == rows0 + RegistryRows(first, guild.id, run.registered)
    requires store.nextRoleId == first + |run.registered|
    requires guild.roles == roles0 + run.created
    modifies store, guild
    ensures var next := CreateStep(run, a, color);
      && stop == next.aborted && count == next.count
      && store.Valid()
      && store.holiRoles == rows0 + RegistryRows(first, guild.id, next.registered)
      && store.nextRoleId == first + |next.registered|
      && guild.roles == roles0 + next.created
    ensures store.splashLogs == old(store.splashLogs) && store.nextLogId == old(store.nextLogId)
    ensures guild.Valid() && guild.members == old(guild.members)
  {
    stop, count := false, createdCount;
    guild.CreateRole(a.create, a.newRole);
    if a.create == Forbidden {
      stop := true;
    } else if a.create == Ok {
      count := count + 1;
      if a.edit == Forbidden {
        stop := true;
      } else if a.edit == Ok {
        store.AddHoliRole(guild.id, a.newRole, color);
        RegistryRowsSnoc(first, guild.id, run.registered, Registration(a.newRole, color));
      }
    }
  }

  lemma RegistryRowsSnoc(first: nat, guildId: nat, regs: seq<Registration>, reg: Registration)
    ensures RegistryRows(first, guildId, regs + [reg])
         == RegistryRows(first, guildId, regs) + [HoliRole(first + |regs|, guildId, reg.roleId, reg.colorName)]
  {
  }

  /** With no earlier rows for the guild, the guild's rows are exactly the ones just stored. */
  lemma RegistryOfCreatedGuild(store: Store, rows0: seq<HoliRole>, first: nat, guildId: nat, regs: seq<Registration>)
    requires RolesOf(rows0, guildId) == []
    requires store.holiRoles == rows0 + RegistryRows(first, guildId, regs)
    ensures store.GetHoliRoles(guildId) == RegistryRows(first, guildId, regs)
  {
    RolesOfAppend(rows0, RegistryRows(first, guildId, regs), guildId);
    RolesOfAll(RegistryRows(first, guildId, regs), guildId);
  }

  /** Once the create loop has stopped on a Forbidden, later colors change nothing. */
  lemma {:induction false} CreateAbortIsFinal(attempts: seq<CreateAttempt>, k: nat, n: nat)
    requires k <= n <= |attempts| && n <= |HoliColors|
    requires RunCreate(attempts, k).aborted
    ensures RunCreate(attempts, n) == RunCreate(attempts, k)
    decreases n
  {
    if n > k {
      CreateAbortIsFinal(attempts, k, n - 1);
    }
  }

  /** The create loop over n colors depends only on the outcomes of those n colors. */
  lemma {:induction false} CreateDependsOnPrefix(a: seq<CreateAttempt>, b: seq<CreateAttempt>, n: nat)
    requires n <= |a| && n <= |b| && n <= |HoliColors|
    requires a[..n] == b[..n]
    ensures RunCreate(a, n) == RunCreate(b, n)
  {
    if n > 0 {
      assert a[..n - 1] == a[..n][..n - 1] && b[..n - 1] == b[..n][..n - 1];
      assert a[n - 1] == a[..n][n - 1] && b[n - 1] == b[..n][n - 1];
      CreateDependsOnPrefix(a, b, n - 1);
    }
  }

  /**
   * A Forbidden at color k stops create_roles: no later color is attempted, so
   * the outcomes given for later colors make no difference to anything.
   */
  lemma ForbiddenStopsCreation(a: seq<CreateAttempt>, b: seq<CreateAttempt>, k: nat)
    requires |a| == |b| == |HoliColors|
    requires k < |HoliColors| && a[..k + 1] == b[..k + 1]
    requires !RunCreate(a, k).aborted
    requires a[k].create == Forbidden || (a[k].create == Ok && a[k].edit == Forbidden)
    ensures RunCreate(a, |HoliColors|) == RunCreate(b, |HoliColors|) == RunCreate(a, k + 1)
    ensures RunCreate(a, |HoliColors|).registered == RunCreate(a, k).registered
  {
    CreateDependsOnPrefix(a, b, k + 1);
    CreateAbortIsFinal(a, k + 1, |HoliColors|);
    CreateAbortIsFinal(b, k + 1, |HoliColors|);
  }

  /** Roles stored by the loop stay stored: earlier registrations are a prefix of later ones. */
  lemma {:induction false} RegisteredStaysRegistered(attempts: seq<CreateAttempt>, k: nat, n: nat)
    requires k <= n <= |attempts| && n <= |HoliColors|
    ensures var early := RunCreate(attempts, k).registered;
      var late := RunCreate(attempts, n).registered;
      |early| <= |late| && late[..|early|] == early
    ensures RunCreate(attempts, k).created <= RunCreate(attempts, n).created
    decreases n
  {
    if n > k {
      RegisteredStaysRegistered(attempts, k, n - 1);
    }
  }

  /**
   * Registrations whose colors are among the first n palette colors, each at
   * most once, in palette order.
   */
  predicate InPaletteOrder(regs: seq<Registration>, n: nat)
  {
    && (forall j :: 0 <= j < |regs| ==> regs[j].colorName in HoliColors && PaletteIndex(regs[j].colorName) < n)
    && (forall i, j :: 0 <= i < j < |regs| ==> PaletteIndex(regs[i].colorName) < PaletteIndex(regs[j].colorName))
  }

  /** The colors stored by create_roles are palette colors, each at most once, in palette order. */
  lemma {:induction false} RegisteredInPaletteOrder(attempts: seq<CreateAttempt>, n: nat)
    requires n <= |attempts| && n <= |HoliColors|
    ensures InPaletteOrder(RunCreate(attempts, n).registered, n)
    ensures var regs := RunCreate(attempts, n).registered;
      forall i, j :: 0 <= i < j < |regs| ==> regs[i].colorName != regs[j].colorName
  {
    if n > 0 {
      RegisteredInPaletteOrder(attempts, n - 1);
      var prev := RunCreate(attempts, n - 1).registered;
      var regs := RunCreate(attempts, n).registered;
      if regs != prev {
        var c := HoliColors[n - 1];
        CreateStepRegistersAtMostOne(RunCreate(attempts, n - 1), attempts[n - 1], c);
        AppendInPaletteOrder(prev, Registration(attempts[n - 1].newRole, c), n - 1);
        assert regs == prev + [Registration(attempts[n - 1].newRole, c)];
      }
    }
  }

  lemma AppendInPaletteOrder(prev: seq<Registration>, r: Registration, k: nat)
    requires k < |HoliColors| && r.colorName == HoliColors[k]
    requires InPaletteOrder(prev, k)
    ensures InPaletteOrder(prev + [r], k + 1)
  {
    PaletteIndexOf(k);
    var regs := prev + [r];
    assert regs[|prev|] == r;
    forall j | 0 <= j < |regs|
      ensures regs[j].colorName in HoliColors && PaletteIndex(regs[j].colorName) < k + 1
    {
      if j < |prev| {
        assert regs[j] == prev[j];
      }
    }
    forall i, j | 0 <= i < j < |regs|
      ensures PaletteIndex(regs[i].colorName) < PaletteIndex(regs[j].colorName)
    {
      assert regs[i] == prev[i];
      if j < |prev| {
        assert regs[j] == prev[j];
      } else {
        assert PaletteIndex(regs[j].colorName) == k;
      }
    }
  }

  /** When every create_role fails without Forbidden, every color is skipped: nothing counted, created or stored. */
  lemma {:induction false} CreateFailuresSkipColors(attempts: seq<CreateAttempt>, n: nat)
    requires n <= |attempts| && n <= |HoliColors|
    requires forall i :: 0 <= i < n ==> attempts[i].create == OtherError
    ensures RunCreate(attempts, n) == CreateRun(0, [], {}, false)
  {
    if n > 0 {
      CreateFailuresSkipColors(attempts, n - 1);
    }
  }

  /**
   * created_count is raised before the edit and the store, so it counts every
   * role made on the platform, stored or not.
   */
  lemma {:induction false} CountCoversRegistered(attempts: seq<CreateAttempt>, n: nat)
    requires n <= |attempts| && n <= |HoliColors|
    ensures |RunCreate(attempts, n).registered| <= RunCreate(attempts, n).count
  {
    if n > 0 {
      CountCoversRegistered(attempts, n - 1);
    }
  }

  /** When every edit fails with a non-Forbidden error, every role is counted and none is stored. */
  lemma {:induction false} EditFailuresCountedNotStored(attempts: seq<CreateAttempt>, n: nat)
    requires n <= |attempts| && n <= |HoliColors|
    requires forall i :: 0 <= i < n ==> attempts[i].create == Ok && attempts[i].edit == OtherError
    ensures RunCreate(attempts, n) == CreateRun(n, [], set i | 0 <= i < n :: attempts[i].newRole, false)
  {
    if n > 0 {
      EditFailuresCountedNotStored(attempts, n - 1);
      assert (set i | 0 <= i < n :: attempts[i].newRole)
          == (set i | 0 <= i < n - 1 :: attempts[i].newRole) + {attempts[n - 1].newRole};
    }
  }

  /** When every call succeeds, the whole palette is stored, in order. */
  lemma {:induction false} AllSucceedRegistersPalette(attempts: seq<CreateAttempt>, n: nat)
    requires n <= |attempts| && n <= |HoliColors|
    requires forall i :: 0 <= i < n ==> attempts[i].create == Ok && attempts[i].edit == Ok
    ensures var run := RunCreate(attempts, n);
      && !run.aborted && run.count == n && |run.registered| == n
      && forall j :: 0 <= j < n ==> run.registered[j] == Registration(attempts[j].newRole, HoliColors[j])
  {
    if n > 0 {
      AllSucceedRegistersPalette(attempts, n - 1);
    }
  }

  // ---------------------------------------------------------------------------
  // /holi_roles delete
  // ---------------------------------------------------------------------------

  /** The state of the delete loop: the guild's roles, deleted_count, and whether a Forbidden ended it. */
  datatype DeleteRun = DeleteRun(roles: set<nat>, count: nat, aborted: bool)

  datatype DeleteReply = NoneFound | DeleteForbidden | Deleted(count: nat)

  /**
   * The delete loop over the first n registry rows. A row whose role is no
   * longer in the guild is skipped; a Forbidden ends the loop; any other
   * failure skips the row.
   */
  function RunDelete(records: seq<HoliRole>, roles: set<nat>, outcomes: seq<Outcome>, n: nat): (r: DeleteRun)
    requires n <= |records| && n <= |outcomes|
    ensures r.roles <= roles && r.count <= n
  {
    if n == 0 then DeleteRun(roles, 0, false)
    else
      var prev := RunDelete(records, roles, outcomes, n - 1);
      var role := records[n - 1].roleId;
      if prev.aborted || role !in prev.roles then prev
      else match outcomes[n - 1]
        case Ok => DeleteRun(prev.roles - {role}, prev.count + 1, false)
        case Forbidden => prev.(aborted := true)
        case OtherError => prev
  }

  method DeleteRoles(store: Store, guild: Guild, outcomes: seq<Outcome>) returns (reply: DeleteReply)
    requires store.Valid() && guild.Valid()
    requires |outcomes| == |store.GetHoliRoles(guild.id)|
    modifies store, guild
    ensures store.Valid()
    ensures store.splashLogs == old(store.splashLogs) && store.nextLogId == old(store.nextLogId)
    ensures store.nextRoleId == old(store.nextRoleId)
    ensures guild.Valid() && guild.members == Prune(old(guild.members), guild.roles)
    ensures old(store.GetHoliRoles(guild.id)) == [] ==>
      reply == NoneFound && store.holiRoles == old(store.holiRoles) && guild.roles == old(guild.roles)
    ensures old(store.GetHoliRoles(guild.id)) != [] ==>
      var run := RunDelete(old(store.GetHoliRoles(guild.id)), old(guild.roles), outcomes, |outcomes|);
      && guild.roles == run.roles
      && reply == (if run.aborted then DeleteForbidden else Deleted(run.count))
      && store.holiRoles == (if run.aborted then old(store.holiRoles) else RolesOutside(old(store.holiRoles), guild.id))
    ensures !reply.DeleteForbidden? ==> store.GetHoliRoles(guild.id) == []
    ensures forall g :: g != guild.id ==> store.GetHoliRoles(g) == old(store.GetHoliRoles(g))
  {
    PruneIdle(guild.members, guild.roles);
    var records := store.GetHoliRoles(guild.id);
    if records == [] {
      return NoneFound;
    }
    var stopped, deletedCount := DeleteListedRoles(guild, records, outcomes);
    if stopped {
      return DeleteForbidden;
    }
    store.ClearHoliRoles(guild.id);
    reply := Deleted(deletedCount);
  }

  /** The delete loop of delete_roles over the guild's registry rows. */
  method DeleteListedRoles(guild: Guild, records: seq<HoliRole>, outcomes: seq<Outcome>)
    returns (stopped: bool, deletedCount: nat)
    requires guild.Valid() && |outcomes| == |records|
    modifies guild
    ensures var run := RunDelete(records, old(guild.roles), outcomes, |records|);
      && stopped == run.aborted && deletedCount == run.count && guild.roles == run.roles
    ensures guild.Valid() && guild.members == Prune(old(guild.members), guild.roles)
  {
    PruneIdle(guild.members, guild.roles);
    ghost var roles0 := guild.roles;
    ghost var members0 := guild.members;
    deletedCount := 0;
    ghost var run := RunDelete(records, roles0, outcomes, 0);
    for i := 0 to |records|
      invariant run == RunDelete(records, roles0, outcomes, i)
      invariant !run.aborted && guild.roles == run.roles && deletedCount == run.count
      invariant guild.Valid() && guild.members == Prune(members0, guild.roles)
    {
      var forbidden, deleted := DeleteRegisteredRole(guild, records[i].roleId, outcomes[i], members0);
      run := RunDelete(records, roles0, outcomes, i + 1);
      if forbidden {
        DeleteAbortIsFinal(records, roles0, outcomes, i + 1, |records|);
        return true, deletedCount;
      }
      if deleted {
        deletedCount := deletedCount + 1;
      }
    }
    stopped := false;
  }

  /**
   * One turn of the delete loop: a role that is still in the guild is deleted;
   * a Forbidden ends the loop, any other failure skips the role.
   */
  method DeleteRegisteredRole(guild: Guild, role: nat, outcome: Outcome, ghost members0: map<nat, Member>)
    returns (forbidden: bool, deleted: bool)
    requires guild.Valid() && guild.members == Prune(members0, guild.roles)
    modifies guild
    ensures forbidden == (role in old(guild.roles) && outcome == Forbidden)
    ensures deleted == (role in old(guild.roles) && outcome == Ok)
    ensures guild.roles == if deleted then old(guild.roles) - {role} else old(guild.roles)
    ensures guild.Valid() && guild.members == Prune(members0, guild.roles)
  {
    forbidden, deleted := false, false;
    if role in guild.roles {
      ghost var before := guild.roles;
      guild.DeleteRole(role, outcome);
      PruneTwice(members0, before, guild.roles);
      forbidden := outcome == Forbidden;
      deleted := outcome == Ok;
    }
  }

  lemma {:induction false} DeleteAbortIsFinal(records: seq<HoliRole>, roles: set<nat>, outcomes: seq<Outcome>, k: nat, n: nat)
    requires k <= n <= |records| && n <= |outcomes|
    requires RunDelete(records, roles, outcomes, k).aborted
    ensures RunDelete(records, roles, outcomes, n) == RunDelete(records, roles, outcomes, k)
    decreases n
  {
    if n > k {
      DeleteAbortIsFinal(records, roles, outcomes, k, n - 1);
    }
  }

  /**
   * Only a Forbidden on a role that was in the guild ends the delete loop early:
   * rows whose role is gone and other failures never do.
   */
  lemma {:induction false} DeleteAbortNeedsForbidden(records: seq<HoliRole>, roles: set<nat>, outcomes: seq<Outcome>, n: nat)
    requires n <= |records| && n <= |outcomes|
    requires RunDelete(records, roles, outcomes, n).aborted
    ensures exists i :: 0 <= i < n && outcomes[i] == Forbidden && records[i].roleId in roles
  {
    var prev := RunDelete(records, roles, outcomes, n - 1);
    if prev.aborted {
      DeleteAbortNeedsForbidden(records, roles, outcomes, n - 1);
    } else {
      DeleteKeepsOnlyGuildRoles(records, roles, outcomes, n - 1);
      assert outcomes[n - 1] == Forbidden && records[n - 1].roleId in roles;
    }
  }

  /**
   * The roles the loop removes from the guild are registered roles, and
   * deleted_count is exactly how many roles it removed.
   */
  lemma {:induction false} DeleteKeepsOnlyGuildRoles(records: seq<HoliRole>, roles: set<nat>, outcomes: seq<Outcome>, n: nat)
    requires n <= |records| && n <= |outcomes|
    ensures var run := RunDelete(records, roles, outcomes, n);
      && run.roles <= roles
      && (forall x :: x in roles - run.roles ==> exists i :: 0 <= i < n && records[i].roleId == x)
      && run.count == |roles - run.roles|
  {
    if n > 0 {
      DeleteKeepsOnlyGuildRoles(records, roles, outcomes, n - 1);
      var prev := RunDelete(records, roles, outcomes, n - 1);
      var role := records[n - 1].roleId;
      if !prev.aborted && role in prev.roles && outcomes[n - 1] == Ok {
        assert roles - (prev.roles - {role}) == (roles - prev.roles) + {role};
        assert role !in roles - prev.roles;
      }
    }
  }

  /** Registry rows whose role no longer exists are skipped without error. */
  lemma {:induction false} DeleteSkipsMissingRoles(records: seq<HoliRole>, roles: set<nat>, outcomes: seq<Outcome>, n: nat)
    requires n <= |records| && n <= |outcomes|
    requires forall i :: 0 <= i < n ==> records[i].roleId !in roles
    ensures RunDelete(records, roles, outcomes, n) == DeleteRun(roles, 0, false)
  {
    if n > 0 {
      DeleteSkipsMissingRoles(records, roles, outcomes, n - 1);
    }
  }

  /** When every deletion succeeds, no registered role is left in the guild. */
  lemma {:induction false} DeleteAllSucceed(records: seq<HoliRole>, roles: set<nat>, outcomes: seq<Outcome>, n: nat)
    requires n <= |records| && n <= |outcomes|
    requires forall i :: 0 <= i < n ==> outcomes[i] == Ok
    ensures var run := RunDelete(records, roles, outcomes, n);
      !run.aborted && forall i :: 0 <= i < n ==> records[i].roleId !in run.roles
  {
    if n > 0 {
      DeleteAllSucceed(records, roles, outcomes, n - 1);
    }
  }

  // ---------------------------------------------------------------------------
  // /splash
  // ---------------------------------------------------------------------------

  /** Whether a registry row is for the given color, ignoring case. */
  predicate NamesColor(rec: HoliRole, color: string)
  {
    Lower(rec.colorName) == Lower(color)
  }

  /** Index of the first registry row for the given color, ignoring case. */
  ghost function FirstMatch(records: seq<HoliRole>, color: string): (k: Option<nat>)
    ensures k.Some? ==>
      && k.value < |records|
      && NamesColor(records[k.value], color)
      && forall j :: 0 <= j < k.value ==> !NamesColor(records[j], color)
    ensures k.None? ==> forall j :: 0 <= j < |records| ==> !NamesColor(records[j], color)
  {
    if records == [] then None
    else if NamesColor(records[0], color) then Some(0)
    else match FirstMatch(records[1..], color)
      case None => None
      case Some(i) => Some(i + 1)
  }

  /** The search loop of splash: the first row whose lower-cased name equals the color's. */
  method FindColorRecord(records: seq<HoliRole>, color: string) returns (found: Option<nat>)
    ensures found == FirstMatch(records, color)
  {
    found := None;
    var i := 0;
    while i < |records|
      invariant 0 <= i <= |records|
      invariant forall j :: 0 <= j < i ==> !NamesColor(records[j], color)
    {
      if Lower(records[i].colorName) == Lower(color) {
        found := Some(i);
        return;
      }
      i := i + 1;
    }
  }

  /** The role ids the registry lists for a guild. */
  function RoleIds(records: seq<HoliRole>): set<nat>
  {
    set r | r in records :: r.roleId
  }

  /** The member's roles after the removal loop, and how it ended. */
  datatype Removal = Removal(held: seq<nat>, status: Outcome)

  /**
   * The removal loop over the first n roles of the member's role list as it was
   * when the loop started: each configured role is removed; any failure ends
   * the loop.
   */
  function RunRemoval(snapshot: seq<nat>, configured: set<nat>, outcomes: seq<Outcome>, n: nat): (r: Removal)
    requires n <= |snapshot| && n <= |outcomes|
    ensures |r.held| <= |snapshot|
  {
    if n == 0 then Removal(snapshot, Ok)
    else
      var prev := RunRemoval(snapshot, configured, outcomes, n - 1);
      var role := snapshot[n - 1];
      if prev.status != Ok || role !in configured then prev
      else match outcomes[n - 1]
        case Ok => Removal(Without(prev.held, role), Ok)
        case Forbidden => prev.(status := Forbidden)
        case OtherError => prev.(status := OtherError)
  }

  method RemoveConfiguredRoles(guild: Guild, member: nat, configured: set<nat>, outcomes: seq<Outcome>)
    returns (status: Outcome)
    requires guild.Valid() && member in guild.members
    requires |outcomes| == |guild.members[member].roles|
    modifies guild
    ensures guild.Valid()
    ensures guild.roles == old(guild.roles)
    ensures var run := RunRemoval(old(guild.members[member].roles), configured, outcomes, |outcomes|);
      && status == run.status
      && guild.members == old(guild.members)[member := old(guild.members[member]).(roles := run.held)]
  {
    var snapshot := guild.members[member].roles;
    ghost var m0 := guild.members[member];
    assert old(guild.members)[member := m0.(roles := snapshot)] == old(guild.members);
    for i := 0 to |snapshot|
      invariant guild.roles == old(guild.roles)
      invariant RunRemoval(snapshot, configured, outcomes, i).status == Ok
      invariant guild.Valid()
      invariant guild.members == old(guild.members)[member := m0.(roles := RunRemoval(snapshot, configured, outcomes, i).held)]
    {
      if snapshot[i] in configured {
        guild.RemoveRole(member, snapshot[i], outcomes[i]);
        if outcomes[i] != Ok {
          RemovalStopIsFinal(snapshot, configured, outcomes, i + 1, |snapshot|);
          return outcomes[i];
        }
      }
    }
    status := Ok;
  }

  lemma {:induction false} RemovalStopIsFinal(snapshot: seq<nat>, configured: set<nat>, outcomes: seq<Outcome>, k: nat, n: nat)
    requires k <= n <= |snapshot| && n <= |outcomes|
    requires RunRemoval(snapshot, configured, outcomes, k).status != Ok
    ensures RunRemoval(snapshot, configured, outcomes, n) == RunRemoval(snapshot, configured, outcomes, k)
    decreases n
  {
    if n > k {
      RemovalStopIsFinal(snapshot, configured, outcomes, k, n - 1);
    }
  }

  /**
   * The removal loop only takes roles away, only configured ones, and when it
   * runs to the end no configured role is left.
   */
  lemma {:induction false} RemovalTakesOnlyConfigured(snapshot: seq<nat>, configured: set<nat>, outcomes: seq<Outcome>, n: nat)
    requires n <= |snapshot| && n <= |outcomes|
    ensures var run := RunRemoval(snapshot, configured, outcomes, n);
      && (forall x :: x in run.held ==> x in snapshot)
      && (forall x :: x in snapshot && x !in configured ==> x in run.held)
      && (run.status == Ok ==> forall x :: x in run.held && x in configured ==> x in snapshot[n..])
  {
    if n > 0 {
      RemovalTakesOnlyConfigured(snapshot, configured, outcomes, n - 1);
      assert snapshot[n - 1..] == [snapshot[n - 1]] + snapshot[n..];
    }
  }

  /**
   * A removal that succeeded stays done: later turns of the loop only take
   * roles away, so the removed role is not held again.
   */
  lemma {:induction false} RemovalStaysDone(snapshot: seq<nat>, configured: set<nat>, outcomes: seq<Outcome>, j: nat, n: nat)
    requires j < n <= |snapshot| && n <= |outcomes|
    requires snapshot[j] in configured && outcomes[j] == Ok
    requires RunRemoval(snapshot, configured, outcomes, j).status == Ok
    ensures snapshot[j] !in RunRemoval(snapshot, configured, outcomes, n).held
    decreases n
  {
    if n > j + 1 {
      RemovalStaysDone(snapshot, configured, outcomes, j, n - 1);
    }
  }

  datatype SplashReply =
    | NoRolesConfigured
    | ColorNotAvailable(color: string)
    | RoleNotFound(color: string)
    | RemoveForbidden
    | AddForbidden
    | PlatformError      // a platform failure other than Forbidden, which splash does not catch
    | Splashed(color: string)

  /** The reply and the member's roles afterwards. */
  datatype SplashEffect = SplashEffect(reply: SplashReply, held: seq<nat>)

  /** The color splash looks for: the one given, or the palette entry drawn at random, title-cased. */
  function RequestedColor(color: Option<string>, pick: nat): (r: string)
    requires pick < |HoliColors|
    ensures Lower(r) == Lower(if color.Some? then color.value else HoliColors[pick])
  {
    var chosen := if color.Some? then color.value else HoliColors[pick];
    LowerOfTitle(chosen);
    Title(chosen)
  }

  /**
   * What splash does to a member holding `held`, given the guild's registry
   * rows, the roles that exist, the (title-cased) color and the outcomes of the
   * remove and add calls.
   */
  ghost function SplashSpec(records: seq<HoliRole>, existing: set<nat>, held: seq<nat>, color: string,
                            removals: seq<Outcome>, add: Outcome): (e: SplashEffect)
    requires |removals| == |held|
    ensures e.reply.Splashed? ==> e.reply == Splashed(color)
    ensures |e.held| <= |held| + 1
  {
    if records == [] then SplashEffect(NoRolesConfigured, held)
    else match FirstMatch(records, color)
      case None => SplashEffect(ColorNotAvailable(color), held)
      case Some(k) =>
        var target := records[k].roleId;
        if target !in existing then SplashEffect(RoleNotFound(color), held)
        else Recolor(held, RoleIds(records), target, color, removals, add)
  }

  /**
   * The last part of splash: take every configured role off the member, then
   * give them `target`; an uncaught failure ends it where it happens.
   */
  function Recolor(held: seq<nat>, configured: set<nat>, target: nat, color: string,
                   removals: seq<Outcome>, add: Outcome): (e: SplashEffect)
    requires |removals| == |held|
    ensures e.reply.Splashed? ==> e.reply == Splashed(color) && target in e.held
    ensures forall x :: x in e.held ==> x in held || x == target
    ensures |e.held| <= |held| + 1
  {
    var run := RunRemoval(held, configured, removals, |held|);
    RemovalTakesOnlyConfigured(held, configured, removals, |held|);
    match run.status
    case Forbidden => SplashEffect(RemoveForbidden, run.held)
    case OtherError => SplashEffect(PlatformError, run.held)
    case Ok =>
      match add
      case Ok => SplashEffect(Splashed(color), With(run.held, target))
      case Forbidden => SplashEffect(AddForbidden, run.held)
      case OtherError => SplashEffect(PlatformError, run.held)
  }

  method Splash(store: Store, guild: Guild, splasher: nat, member: nat, color: Option<string>, pick: nat,
                removals: seq<Outcome>, add: Outcome, now: string) returns (reply: SplashReply)
    requires store.Valid() && guild.Valid()
    requires member in guild.members
    requires pick < |HoliColors|
    requires |removals| == |guild.members[member].roles|
    modifies store, guild
    ensures guild.Valid()
    ensures store.Valid()
    ensures store.holiRoles == old(store.holiRoles) && guild.roles == old(guild.roles)
    ensures store.nextRoleId == old(store.nextRoleId)
    ensures store.nextLogId == old(store.nextLogId) + (if reply.Splashed? then 1 else 0)
    ensures var effect := SplashSpec(old(store.GetHoliRoles(guild.id)), old(guild.roles),
                                     old(guild.members[member].roles), RequestedColor(color, pick), removals, add);
      && reply == effect.reply
      && guild.members == old(guild.members)[member := old(guild.members[member]).(roles := effect.held)]
    ensures reply.Splashed? ==>
      store.splashLogs == old(store.splashLogs)
        + [SplashLog(old(store.nextLogId), guild.id, splasher, member, RequestedColor(color, pick), now)]
    ensures !reply.Splashed? ==> store.splashLogs == old(store.splashLogs)
  {
    ghost var m0 := guild.members[member];
    assert old(guild.members)[member := m0.(roles := m0.roles)] == old(guild.members);
    var records := store.GetHoliRoles(guild.id);
    if records == [] {
      return NoRolesConfigured;
    }
    var name := RequestedColor(color, pick);
    var found := FindColorRecord(records, name);
    if found.None? {
      return ColorNotAvailable(name);
    }
    var target := records[found.value].roleId;
    if target !in guild.roles {
      return RoleNotFound(name);
    }
    reply := SwapColorRole(guild, member, RoleIds(records), target, name, removals, add);
    if reply.Splashed? {
      store.LogSplash(guild.id, splasher, member, name, now);
    }
  }

  /** The remove and add calls of splash; only Forbidden is caught. */
  method SwapColorRole(guild: Guild, member: nat, configured: set<nat>, target: nat, color: string,
                       removals: seq<Outcome>, add: Outcome) returns (reply: SplashReply)
    requires guild.Valid() && member in guild.members && target in guild.roles
    requires |removals| == |guild.members[member].roles|
    modifies guild
    ensures guild.Valid()
    ensures guild.roles == old(guild.roles)
    ensures var effect := Recolor(old(guild.members[member].roles), configured, target, color, removals, add);
      && reply == effect.reply
      && guild.members == old(guild.members)[member := old(guild.members[member]).(roles := effect.held)]
  {
    var status := RemoveConfiguredRoles(guild, member, configured, removals);
    if status == Forbidden {
      return RemoveForbidden;
    }
    if status == OtherError {
      return PlatformError;
    }
    guild.AddRole(member, target, add);
    if add == Forbidden {
      return AddForbidden;
    }
    if add == OtherError {
      return PlatformError;
    }
    reply := Splashed(color);
  }

  /**
   * splash finds the first registry row whose lower-cased name equals the
   * lower-cased color the caller typed: title-casing first changes nothing.
   */
  lemma ResolvesIgnoringCase(records: seq<HoliRole>, typed: string)
    ensures var k := FirstMatch(records, Title(typed));
      && (k.Some? ==>
            && Lower(records[k.value].colorName) == Lower(typed)
            && forall j :: 0 <= j < k.value ==> Lower(records[j].colorName) != Lower(typed))
      && (k.None? ==> forall j :: 0 <= j < |records| ==> Lower(records[j].colorName) != Lower(typed))
  {
    LowerOfTitle(typed);
  }

  /** Colors typed in different case ("rEd", "Red") splash identically. */
  lemma SplashIgnoresCase(records: seq<HoliRole>, existing: set<nat>, held: seq<nat>, a: string, b: string,
                          removals: seq<Outcome>, add: Outcome)
    requires |removals| == |held|
    requires Lower(a) == Lower(b)
    ensures SplashSpec(records, existing, held, Title(a), removals, add)
         == SplashSpec(records, existing, held, Title(b), removals, add)
  {
    TitleIgnoresCase(a, b);
  }

  /**
   * A random pick is drawn from the whole palette, not from the guild's
   * registered colors: a palette color the guild has no row for fails with
   * "not available" and changes nothing.
   */
  lemma RandomPickCanMiss(records: seq<HoliRole>, existing: set<nat>, held: seq<nat>, pick: nat,
                          removals: seq<Outcome>, add: Outcome)
    requires |removals| == |held| && pick < |HoliColors|
    requires records != []
    requires forall j :: 0 <= j < |records| ==> Lower(records[j].colorName) != Lower(HoliColors[pick])
    ensures SplashSpec(records, existing, held, RequestedColor(None, pick), removals, add)
         == SplashEffect(ColorNotAvailable(Title(HoliColors[pick])), held)
  {
    LowerOfTitle(HoliColors[pick]);
  }

  /**
   * The three lookup failures: no rows, no row for the color, or a row whose
   * role no longer exists. Each leaves the member's roles as they were.
   */
  lemma FailedLookupChangesNothing(records: seq<HoliRole>, existing: set<nat>, held: seq<nat>, color: string,
                                   removals: seq<Outcome>, add: Outcome)
    requires |removals| == |held|
    ensures var e := SplashSpec(records, existing, held, color, removals, add);
      (e.reply.NoRolesConfigured? || e.reply.ColorNotAvailable? || e.reply.RoleNotFound?) ==> e.held == held
    ensures records == [] ==> SplashSpec(records, existing, held, color, removals, add).reply == NoRolesConfigured
    ensures records != [] && FirstMatch(records, color).None? ==>
      SplashSpec(records, existing, held, color, removals, add).reply == ColorNotAvailable(color)
    ensures var k := FirstMatch(records, color);
      records != [] && k.Some? && records[k.value].roleId !in existing ==>
        SplashSpec(records, existing, held, color, removals, add).reply == RoleNotFound(color)
  {
  }

  /**
   * A successful splash needs the matched row's role to exist. It leaves the
   * member with exactly one configured role, the one for the requested color, keeps every role that is not configured, and
   * reports the requested color rather than the stored row's name.
   */
  lemma SplashLeavesOneColor(records: seq<HoliRole>, existing: set<nat>, held: seq<nat>, color: string,
                             removals: seq<Outcome>, add: Outcome)
    requires |removals| == |held|
    requires SplashSpec(records, existing, held, color, removals, add).reply.Splashed?
    ensures var e := SplashSpec(records, existing, held, color, removals, add);
      var k := FirstMatch(records, color);
      && k.Some?
      && records[k.value].roleId in existing
      && e.reply == Splashed(color)
      && records[k.value].roleId in e.held
      && (forall x :: x in e.held && x in RoleIds(records) ==> x == records[k.value].roleId)
      && (forall x :: x in held && x !in RoleIds(records) ==> x in e.held)
      && (forall x :: x in e.held ==> x in held || x == records[k.value].roleId)
  {
    RemovalTakesOnlyConfigured(held, RoleIds(records), removals, |held|);
    assert held[|held|..] == [];
  }

  /**
   * A refused removal ends splash before the add: the member gains nothing,
   * keeps every role that is not configured, and the removals already done
   * stay done.
   */
  lemma RefusedRemovalGrantsNothing(records: seq<HoliRole>, existing: set<nat>, held: seq<nat>, color: string,
                                    removals: seq<Outcome>, add: Outcome)
    requires |removals| == |held|
    requires SplashSpec(records, existing, held, color, removals, add).reply == RemoveForbidden
    ensures var e := SplashSpec(records, existing, held, color, removals, add);
      && (forall x :: x in e.held ==> x in held)
      && (forall x :: x in held && x !in RoleIds(records) ==> x in e.held)
      && (forall j ::
            (0 <= j < |held| && held[j] in RoleIds(records) && removals[j] == Ok
             && RunRemoval(held, RoleIds(records), removals, j).status == Ok) ==> held[j] !in e.held)
  {
    RemovalTakesOnlyConfigured(held, RoleIds(records), removals, |held|);
    forall j | 0 <= j < |held| && held[j] in RoleIds(records) && removals[j] == Ok
                 && RunRemoval(held, RoleIds(records), removals, j).status == Ok
      ensures held[j] !in RunRemoval(held, RoleIds(records), removals, |held|).held
    {
      RemovalStaysDone(held, RoleIds(records), removals, j, |held|);
    }
  }

  lemma TitleOfBlue()
    ensures Title("blue") == "Blue"
  {
    assert "blue"[1..] == "lue" && "lue"[1..] == "ue" && "ue"[1..] == "e" && "e"[1..] == [];
    assert TitleFrom("e", true) == "e";
    assert TitleFrom("ue", true) == "ue";
    assert TitleFrom("lue", true) == "lue";
  }

  lemma BlueIsSecondRow(records: seq<HoliRole>)
    requires |records| == 2 && records[0].colorName == "Red" && records[1].colorName == "Blue"
    ensures FirstMatch(records, "Blue") == Some(1)
  {
    assert Lower("Red")[0] == 'r' && Lower("Blue")[0] == 'b';
    assert FirstMatch(records[1..], "Blue") == Some(0);
  }

  /**
   * A guild registered with Red and Blue; the member holds Red and one other
   * role; splashing Blue removes Red and adds Blue.
   */
  lemma RedToBlue(g: nat)
    ensures var records := [HoliRole(1, g, 10, "Red"), HoliRole(2, g, 20, "Blue")];
      SplashSpec(records, {10, 20}, [5, 10], Title("blue"), [Ok, Ok], Ok)
        == SplashEffect(Splashed("Blue"), [5, 20])
  {
    var records := [HoliRole(1, g, 10, "Red"), HoliRole(2, g, 20, "Blue")];
    TitleOfBlue();
    BlueIsSecondRow(records);
    assert RoleIds(records) == {10, 20};
    assert RunRemoval([5, 10], {10, 20}, [Ok, Ok], 1) == Removal([5, 10], Ok);
    assert Without([5, 10], 10) == [5];
    assert RunRemoval([5, 10], {10, 20}, [Ok, Ok], 2) == Removal([5], Ok);
    assert With([5], 20) == [5, 20];
    assert Recolor([5, 10], {10, 20}, 20, "Blue", [Ok, Ok], Ok) == SplashEffect(Splashed("Blue"), [5, 20]);
  }

  // ---------------------------------------------------------------------------
  // /splash_history
  // ---------------------------------------------------------------------------

  /** How many events splash_history asks for. */
  const HistoryLimit: nat := 10

  datatype HistoryReply = NoEvents | History(lines: seq<string>, text: string)

  /** The member's display name, or User(<id>) when the member is not in the guild. */
  function DisplayName(members: map<nat, Member>, user: nat): string
  {
    if user in members then members[user].displayName else "User(" + Decimal(user) + ")"
  }

  /**
   * A member is shown by their display name; anyone else as User(<id>), where
   * the digits read back as the id.
   */
  lemma DisplayNameShows(members: map<nat, Member>, user: nat)
    ensures var r := DisplayName(members, user);
      && (user in members ==> r == members[user].displayName)
      && (user !in members ==>
            && |r| >= 7 && r[..5] == "User(" && r[|r| - 1] == ')'
            && AllDigits(r[5..|r| - 1]) && ParseDecimal(r[5..|r| - 1]) == user)
  {
    DecimalRoundTrip(user);
    var r := DisplayName(members, user);
    if user !in members {
      assert r[5..|r| - 1] == Decimal(user);
    }
  }

  /** One line of the history: time, splasher, target and the logged color. */
  function EventLine(log: SplashLog, members: map<nat, Member>): string
  {
    var time := "`" + log.timestamp + "`";
    var color := "**" + log.colorName + "**";
    time + EventMiddle(log, members) + color
  }

  /** The part of a history line between the time and the color: who splashed whom. */
  function EventMiddle(log: SplashLog, members: map<nat, Member>): string
  {
    " \U{2013} **" + DisplayName(members, log.splasherId) + "** splashed **"
      + DisplayName(members, log.targetId) + "** with "
  }

  /** A history line opens with the event's time in backquotes and closes with its color in bold. */
  lemma EventLineFrames(log: SplashLog, members: map<nat, Member>)
    ensures var r := EventLine(log, members);
      && |r| >= |log.timestamp| + |log.colorName| + 6
      && r[..|log.timestamp| + 2] == "`" + log.timestamp + "`"
      && r[|r| - |log.colorName| - 4..] == "**" + log.colorName + "**"
  {
    var time := "`" + log.timestamp + "`";
    var rest := EventMiddle(log, members) + "**" + log.colorName + "**";
    assert EventLine(log, members) == time + rest;
  }

  /** The loop of splash_history: one line per event, in the order given. */
  method FormatLines(logs: seq<SplashLog>, members: map<nat, Member>) returns (lines: seq<string>)
    ensures |lines| == |logs|
    ensures forall i :: 0 <= i < |logs| ==> lines[i] == EventLine(logs[i], members)
  {
    lines := [];
    for i := 0 to |logs|
      invariant |lines| == i
      invariant forall j :: 0 <= j < i ==> lines[j] == EventLine(logs[j], members)
    {
      lines := lines + [EventLine(logs[i], members)];
    }
  }

  /** The reply text: the header with the line count, then the lines one per row. */
  function HistoryText(lines: seq<string>): (r: string)
    ensures |r| >= |Join(lines, "\n")|
    ensures r[|r| - |Join(lines, "\n")|..] == Join(lines, "\n")
  {
    "**Last " + Decimal(|lines|) + " Splash Events:**\n" + Join(lines, "\n")
  }

  method SplashHistory(store: Store, guild: Guild) returns (reply: HistoryReply)
    requires store.Valid()
    ensures var logs := store.GetSplashLogs(guild.id, HistoryLimit);
      && (reply == NoEvents <==> logs == [])
      && (reply.History? ==>
            && |reply.lines| == |logs| <= HistoryLimit
            && (forall i :: 0 <= i < |logs| ==> reply.lines[i] == EventLine(logs[i], guild.members))
            && reply.text == HistoryText(reply.lines))
  {
    var logs := store.GetSplashLogs(guild.id, HistoryLimit);
    if logs == [] {
      return NoEvents;
    }
    var lines := FormatLines(logs, guild.members);
    reply := History(lines, HistoryText(lines));
  }

  /** The count in the history header is the number of lines. */
  lemma HeaderCountsLines(lines: seq<string>)
    ensures var digits := Decimal(|lines|);
      && HistoryText(lines)[..7 + |digits|] == "**Last " + digits
      && ParseDecimal(digits) == |lines|
  {
    DecimalRoundTrip(|lines|);
  }

  /** Two users missing from the guild never get the same fallback name. */
  lemma FallbackNamesIdentifyUsers(members: map<nat, Member>, a: nat, b: nat)
    requires a !in members && b !in members
    requires DisplayName(members, a) == DisplayName(members, b)
    ensures a == b
  {
    DisplayNameShows(members, a);
    DisplayNameShows(members, b);
  }
}

=== FILE: repository.dfy ===
/**
 * The persistence layer: the holi_roles and splash_logs tables, held in memory.
 * Each table is a sequence of rows in insertion order; each has its own
 * auto-increment counter for the integer primary key.
 */
module Repository {

  /** A row of holi_roles: one registered color role of one guild. */
  datatype HoliRole = HoliRole(id: nat, guildId: nat, roleId: nat, colorName: string)

  /**
   * A row of splash_logs. The write time is kept as the text it is shown as
   * ("YYYY-MM-DD HH:MM"); the model does not look inside it.
   */
  datatype SplashLog = SplashLog(id: nat, guildId: nat, splasherId: nat, targetId: nat,
                                 colorName: string, timestamp: string)

  /** The rows of guild `guildId`, in table order (filter_by(guild_id=...)). */
  function RolesOf(rows: seq<HoliRole>, guildId: nat): (r: seq<HoliRole>)
    ensures |r| <= |rows|
    ensures forall i :: 0 <= i < |r| ==> r[i].guildId == guildId
  {
    if rows == [] then []
    else (if rows[0].guildId == guildId then [rows[0]] else []) + RolesOf(rows[1..], guildId)
  }

  /** The rows of every guild except `guildId`: what a bulk delete by guild leaves. */
  function RolesOutside(rows: seq<HoliRole>, guildId: nat): (r: seq<HoliRole>)
    ensures |r| <= |rows|
    ensures forall i :: 0 <= i < |r| ==> r[i].guildId != guildId
  {
    if rows == [] then []
    else (if rows[0].guildId != guildId then [rows[0]] else []) + RolesOutside(rows[1..], guildId)
  }

  function LogsOf(logs: seq<SplashLog>, guildId: nat): (r: seq<SplashLog>)
    ensures |r| <= |logs|
    ensures forall i :: 0 <= i < |r| ==> r[i].guildId == guildId
  {
    if logs == [] then []
    else (if logs[0].guildId == guildId then [logs[0]] else []) + LogsOf(logs[1..], guildId)
  }

  /** filter_by(guild_id=g) keeps exactly the rows of guild g. */
  lemma {:induction false} RolesOfMembers(rows: seq<HoliRole>, guildId: nat)
    ensures forall x :: x in RolesOf(rows, guildId) <==> x in rows && x.guildId == guildId
  {
    if rows != [] {
      RolesOfMembers(rows[1..], guildId);
      assert rows == [rows[0]] + rows[1..];
    }
  }

  /** A bulk delete by guild keeps exactly the rows of the other guilds. */
  lemma {:induction false} RolesOutsideMembers(rows: seq<HoliRole>, guildId: nat)
    ensures forall x :: x in RolesOutside(rows, guildId) <==> x in rows && x.guildId != guildId
  {
    if rows != [] {
      RolesOutsideMembers(rows[1..], guildId);
      assert rows == [rows[0]] + rows[1..];
    }
  }

  lemma {:induction false} LogsOfMembers(logs: seq<SplashLog>, guildId: nat)
    ensures forall x :: x in LogsOf(logs, guildId) <==> x in logs && x.guildId == guildId
  {
    if logs != [] {
      LogsOfMembers(logs[1..], guildId);
      assert logs == [logs[0]] + logs[1..];
    }
  }

  ghost predicate RoleIdsAscending(rows: seq<HoliRole>)
  {
    forall i, j :: 0 <= i < j < |rows| ==> rows[i].id < rows[j].id
  }

  ghost predicate LogIdsAscending(logs: seq<SplashLog>)
  {
    forall i, j :: 0 <= i < j < |logs| ==> logs[i].id < logs[j].id
  }

  function Reverse<T>(s: seq<T>): (r: seq<T>)
    ensures |r| == |s|
    ensures forall i :: 0 <= i < |s| ==> r[i] == s[|s| - 1 - i]
  {
    if s == [] then [] else Reverse(s[1..]) + [s[0]]
  }

  function Min(a: nat, b: nat): nat { if a <= b then a else b }

  lemma {:induction false} RolesOfAppend(rows: seq<HoliRole>, more: seq<HoliRole>, guildId: nat)
    ensures RolesOf(rows + more, guildId) == RolesOf(rows, guildId) + RolesOf(more, guildId)
  {
    if rows == [] {
      assert rows + more == more;
    } else {
      assert (rows + more)[1..] == rows[1..] + more;
      RolesOfAppend(rows[1..], more, guildId);
    }
  }

  lemma {:induction false} RolesOfAbsent(rows: seq<HoliRole>, guildId: nat)
    requires forall x :: x in rows ==> x.guildId != guildId
    ensures RolesOf(rows, guildId) == []
  {
    if rows != [] {
      assert rows[0] in rows;
      RolesOfAbsent(rows[1..], guildId);
    }
  }

  lemma {:induction false} RolesOfAll(rows: seq<HoliRole>, guildId: nat)
    requires forall x :: x in rows ==> x.guildId == guildId
    ensures RolesOf(rows, guildId) == rows
  {
    if rows != [] {
      assert rows[0] in rows;
      RolesOfAll(rows[1..], guildId);
    }
  }

  lemma {:induction false} RolesOutsideKeepsOthers(rows: seq<HoliRole>, guildId: nat, other: nat)
    requires other != guildId
    ensures RolesOf(RolesOutside(rows, guildId), other) == RolesOf(rows, other)
  {
    if rows != [] {
      RolesOutsideKeepsOthers(rows[1..], guildId, other);
      var head := if rows[0].guildId != guildId then [rows[0]] else [];
      RolesOfAppend(head, RolesOutside(rows[1..], guildId), other);
    }
  }

  lemma {:induction false} RolesOutsideAscending(rows: seq<HoliRole>, guildId: nat)
    requires RoleIdsAscending(rows)
    ensures RoleIdsAscending(RolesOutside(rows, guildId))
  {
    if rows != [] {
      RolesOutsideAscending(rows[1..], guildId);
      var tail := RolesOutside(rows[1..], guildId);
      RolesOutsideMembers(rows[1..], guildId);
      forall x | x in tail ensures rows[0].id < x.id {
        var k :| 0 <= k < |rows[1..]| && rows[1..][k] == x;
        assert rows[k + 1] == x;
      }
    }
  }

  lemma {:induction false} LogsOfAscending(logs: seq<SplashLog>, guildId: nat)
    requires LogIdsAscending(logs)
    ensures LogIdsAscending(LogsOf(logs, guildId))
  {
    if logs != [] {
      LogsOfAscending(logs[1..], guildId);
      var tail := LogsOf(logs[1..], guildId);
      LogsOfMembers(logs[1..], guildId);
      forall x | x in tail ensures logs[0].id < x.id {
        var k :| 0 <= k < |logs[1..]| && logs[1..][k] == x;
        assert logs[k + 1] == x;
      }
    }
  }

  /**
   * The tables do not enforce one row per (guild, color): registering the same
   * color twice for a guild leaves two rows for it.
   */
  lemma DuplicateColorsKept(rows: seq<HoliRole>, first: HoliRole, second: HoliRole)
    requires first.guildId == second.guildId && first.colorName == second.colorName
    ensures var mine := RolesOf(rows + [first] + [second], first.guildId);
      |mine| >= 2 && mine[|mine| - 2] == first && mine[|mine| - 1] == second
      && mine[|mine| - 2].colorName == mine[|mine| - 1].colorName
  {
    var g := first.guildId;
    assert RolesOf([first], g) == [first] && RolesOf([second], g) == [second];
    RolesOfAppend(rows, [first], g);
    RolesOfAppend(rows + [first], [second], g);
    assert RolesOf(rows + [first] + [second], g) == RolesOf(rows, g) + [first] + [second];
  }

  /** The store behind the repository functions. */
  class Store {
    var holiRoles: seq<HoliRole>
    var splashLogs: seq<SplashLog>
    /** Next value of the auto-increment key of holi_roles. */
    var nextRoleId: nat
    /** Next value of the auto-increment key of splash_logs. */
    var nextLogId: nat

    /** Keys are handed out in increasing order and never reused. */
    ghost predicate Valid()
      reads this
    {
      && RoleIdsAscending(holiRoles)
      && (forall i :: 0 <= i < |holiRoles| ==> holiRoles[i].id < nextRoleId)
      && LogIdsAscending(splashLogs)
      && (forall i :: 0 <= i < |splashLogs| ==> splashLogs[i].id < nextLogId)
    }

    constructor ()
      ensures Valid()
      ensures holiRoles == [] && splashLogs == []
      ensures nextRoleId == 1 && nextLogId == 1
    {
      holiRoles, splashLogs := [], [];
      nextRoleId, nextLogId := 1, 1;
    }

    /** add_holi_role: insert one row; nothing is checked against existing rows. */
    method AddHoliRole(guildId: nat, roleId: nat, colorName: string)
      requires Valid()
      modifies this
      ensures Valid()
      ensures holiRoles == old(holiRoles) + [HoliRole(old(nextRoleId), guildId, roleId, colorName)]
      ensures nextRoleId == old(nextRoleId) + 1
      ensures splashLogs == old(splashLogs) && nextLogId == old(nextLogId)
      ensures GetHoliRoles(guildId) == old(GetHoliRoles(guildId)) + [HoliRole(old(nextRoleId), guildId, roleId, colorName)]
      ensures forall g :: g != guildId ==> GetHoliRoles(g) == old(GetHoliRoles(g))
    {
      var row := HoliRole(nextRoleId, guildId, roleId, colorName);
      RolesOfAppend(holiRoles, [row], guildId);
      forall g | g != guildId ensures RolesOf(holiRoles + [row], g) == RolesOf(holiRoles, g) {
        RolesOfAppend(holiRoles, [row], g);
      }
      holiRoles := holiRoles + [row];
      nextRoleId := nextRoleId + 1;
    }

    /** get_holi_roles: the rows of one guild; reading changes nothing. */
    function GetHoliRoles(guildId: nat): (r: seq<HoliRole>)
      reads this
      ensures |r| <= |holiRoles|
      ensures forall i :: 0 <= i < |r| ==> r[i].guildId == guildId
    {
      RolesOf(holiRoles, guildId)
    }

    /** clear_holi_roles: delete every row of one guild and no other. */
    method ClearHoliRoles(guildId: nat)
      requires Valid()
      modifies this
      ensures Valid()
      ensures holiRoles == RolesOutside(old(holiRoles), guildId)
      ensures nextRoleId == old(nextRoleId)
      ensures splashLogs == old(splashLogs) && nextLogId == old(nextLogId)
      ensures GetHoliRoles(guildId) == []
      ensures forall g :: g != guildId ==> GetHoliRoles(g) == old(GetHoliRoles(g))
    {
      RolesOutsideAscending(holiRoles, guildId);
      RolesOutsideMembers(holiRoles, guildId);
      RolesOfAbsent(RolesOutside(holiRoles, guildId), guildId);
      forall g | g != guildId ensures RolesOf(RolesOutside(holiRoles, guildId), g) == RolesOf(holiRoles, g) {
        RolesOutsideKeepsOthers(holiRoles, guildId, g);
      }
      holiRoles := RolesOutside(holiRoles, guildId);
    }

    /** log_splash: append one event whose key exceeds every earlier key. */
    method LogSplash(guildId: nat, splasherId: nat, targetId: nat, colorName: string, now: string)
      requires Valid()
      modifies this
      ensures Valid()
      ensures splashLogs == old(splashLogs) + [SplashLog(old(nextLogId), guildId, splasherId, targetId, colorName, now)]
      ensures forall i :: 0 <= i < |old(splashLogs)| ==> old(splashLogs)[i].id < splashLogs[|splashLogs| - 1].id
      ensures nextLogId == old(nextLogId) + 1
      ensures holiRoles == old(holiRoles) && nextRoleId == old(nextRoleId)
    {
      splashLogs := splashLogs + [SplashLog(nextLogId, guildId, splasherId, targetId, colorName, now)];
      nextLogId := nextLogId + 1;
    }

    /**
     * get_splash_logs: the guild's events ordered by key, newest first, at most
     * `limit` of them. Keys ascend in table order, so descending key order is
     * the reverse of table order.
     */
    function GetSplashLogs(guildId: nat, limit: nat): (r: seq<SplashLog>)
      requires Valid()
      reads this
      ensures var mine := LogsOf(splashLogs, guildId);
        && |r| == Min(limit, |mine|)
        && (forall i :: 0 <= i < |r| ==> r[i] == mine[|mine| - 1 - i])
      ensures forall i :: 0 <= i < |r| ==> r[i].guildId == guildId && r[i] in splashLogs
      ensures forall i, j :: 0 <= i < j < |r| ==> r[i].id > r[j].id
    {
      var mine := LogsOf(splashLogs, guildId);
      LogsOfAscending(splashLogs, guildId);
      LogsOfMembers(splashLogs, guildId);
      Reverse(mine)[..Min(limit, |mine|)]
    }
  }
}

=== FILE: text.dfy ===
/**
 * The string operations the bot relies on, restricted to ASCII letters:
 * Python's str.lower() and str.title(), the decimal rendering of an id in an
 * f-string, and "\n".join(lines).
 */
module Text {

  predicate IsUpper(c: char) { 'A' <= c <= 'Z' }
  predicate IsLower(c: char) { 'a' <= c <= 'z' }
  /** The cased characters of the model: ASCII letters only. */
  predicate IsLetter(c: char) { IsUpper(c) || IsLower(c) }
  predicate IsDigit(c: char) { '0' <= c <= '9' }

  function LowerChar(c: char): (d: char)
    ensures IsLetter(d) == IsLetter(c)
    ensures !IsUpper(d)
    ensures IsUpper(c) ==> d as int == c as int + 32
    ensures !IsUpper(c) ==> d == c
  {
    if IsUpper(c) then (c as int + 32) as char else c
  }

  function UpperChar(c: char): (d: char)
    ensures IsLetter(d) == IsLetter(c)
    ensures !IsLower(d)
    ensures IsLower(c) ==> d as int == c as int - 32
    ensures !IsLower(c) ==> d == c
  {
    if IsLower(c) then (c as int - 32) as char else c
  }

  /** str.lower() */
  function Lower(s: string): (r: string)
    ensures |r| == |s|
    ensures forall i :: 0 <= i < |s| ==> r[i] == LowerChar(s[i])
  {
    if s == [] then [] else [LowerChar(s[0])] + Lower(s[1..])
  }

  /**
   * The case str.title() gives one character: a letter that follows a letter is
   * lower-cased, any other letter is upper-cased, anything else is kept.
   */
  function TitleChar(c: char, afterLetter: bool): (d: char)
    ensures LowerChar(d) == LowerChar(c)
    ensures IsLetter(c) && afterLetter ==> !IsUpper(d)
    ensures IsLetter(c) && !afterLetter ==> !IsLower(d)
  {
    if !IsLetter(c) then c else if afterLetter then LowerChar(c) else UpperChar(c)
  }

  /** str.title() on a string whose preceding character was (or was not) a letter. */
  function TitleFrom(s: string, afterLetter: bool): (r: string)
    ensures |r| == |s|
    ensures |s| > 0 ==> r[0] == TitleChar(s[0], afterLetter)
    ensures forall i :: 0 < i < |s| ==> r[i] == TitleChar(s[i], IsLetter(s[i - 1]))
  {
    if s == [] then []
    else
      var rest := TitleFrom(s[1..], IsLetter(s[0]));
      assert forall j :: 0 <= j < |s| - 1 ==> s[1..][j] == s[j + 1];
      [TitleChar(s[0], afterLetter)] + rest
  }

  /**
   * str.title(): each letter is upper-cased at the start of a word and
   * lower-cased inside one; a word is a run of letters.
   */
  function Title(s: string): (r: string)
    ensures |r| == |s|
    ensures forall i :: 0 <= i < |s| ==> r[i] == TitleChar(s[i], i > 0 && IsLetter(s[i - 1]))
  {
    TitleFrom(s, false)
  }

  /** Title-casing changes only the case of letters: lower-casing undoes it. */
  lemma {:induction false} LowerOfTitleFrom(s: string, afterLetter: bool)
    ensures Lower(TitleFrom(s, afterLetter)) == Lower(s)
  {
    if s != [] {
      LowerOfTitleFrom(s[1..], IsLetter(s[0]));
      var t := TitleFrom(s, afterLetter);
      assert t[1..] == TitleFrom(s[1..], IsLetter(s[0]));
      assert LowerChar(t[0]) == LowerChar(s[0]);
    }
  }

  lemma LowerOfTitle(s: string)
    ensures Lower(Title(s)) == Lower(s)
  {
    LowerOfTitleFrom(s, false);
  }

  /** The title-cased form of a string depends only on its lower-cased form. */
  lemma {:induction false} TitleFromIgnoresCase(a: string, b: string, afterLetter: bool)
    requires Lower(a) == Lower(b)
    ensures TitleFrom(a, afterLetter) == TitleFrom(b, afterLetter)
  {
    if a != [] {
      assert Lower(a)[0] == LowerChar(a[0]) && Lower(b)[0] == LowerChar(b[0]);
      assert Lower(a)[1..] == Lower(a[1..]) && Lower(b)[1..] == Lower(b[1..]);
      TitleFromIgnoresCase(a[1..], b[1..], IsLetter(a[0]));
    }
  }

  lemma TitleIgnoresCase(a: string, b: string)
    requires Lower(a) == Lower(b)
    ensures Title(a) == Title(b)
  {
    TitleFromIgnoresCase(a, b, false);
  }

  function DigitChar(d: nat): (c: char)
    requires d < 10
    ensures IsDigit(c)
  {
    ('0' as int + d) as char
  }

  function DigitValue(c: char): (d: nat)
    requires IsDigit(c)
    ensures d < 10
  {
    c as int - '0' as int
  }

  predicate AllDigits(s: string)
  {
    forall i :: 0 <= i < |s| ==> IsDigit(s[i])
  }

  /** f"{n}" for a non-negative integer: decimal digits, no leading zero. */
  function Decimal(n: nat): (s: string)
    ensures |s| >= 1 && AllDigits(s)
    ensures s[0] == '0' ==> n == 0
    decreases n
  {
    if n < 10 then [DigitChar(n)] else Decimal(n / 10) + [DigitChar(n % 10)]
  }

  /** int(s) for a string of decimal digits. */
  function ParseDecimal(s: string): nat
    requires AllDigits(s)
  {
    if s == [] then 0 else 10 * ParseDecimal(s[..|s| - 1]) + DigitValue(s[|s| - 1])
  }

  lemma {:induction false} DecimalRoundTrip(n: nat)
    ensures ParseDecimal(Decimal(n)) == n
    decreases n
  {
    var s := Decimal(n);
    if n >= 10 {
      DecimalRoundTrip(n / 10);
      assert s[..|s| - 1] == Decimal(n / 10);
    }
  }

  lemma DecimalInjective(a: nat, b: nat)
    requires Decimal(a) == Decimal(b)
    ensures a == b
  {
    DecimalRoundTrip(a);
    DecimalRoundTrip(b);
  }

  /** sep.join(parts): the parts in order, one separator between neighbours. */
  function Join(parts: seq<string>, sep: string): (r: string)
    ensures |parts| == 0 ==> r == []
    ensures |parts| > 0 ==>
      && |r| == TotalLength(parts) + (|parts| - 1) * |sep|
      && |parts[|parts| - 1]| <= |r|
      && r[|r| - |parts[|parts| - 1]|..] == parts[|parts| - 1]
  {
    if parts == [] then []
    else if |parts| == 1 then parts[0]
    else Join(parts[..|parts| - 1], sep) + sep + parts[|parts| - 1]
  }

  /** A joined text starts with its first part. */
  lemma {:induction false} JoinStartsWithFirst(parts: seq<string>, sep: string)
    requires |parts| > 0
    ensures |parts[0]| <= |Join(parts, sep)| && Join(parts, sep)[..|parts[0]|] == parts[0]
  {
    if |parts| > 1 {
      var init := parts[..|parts| - 1];
      JoinStartsWithFirst(init, sep);
      assert init[0] == parts[0];
    }
  }

  /** The summed length of some strings. */
  function TotalLength(parts: seq<string>): nat
  {
    if parts == [] then 0 else TotalLength(parts[..|parts| - 1]) + |parts[|parts| - 1]|
  }
}
